=== FILE: README.md ===
# A verified model of the playground-029 social-posting backend

The backend is an Express server over MongoDB (through Mongoose). It keeps
users and posts. A user signs up locally, with a username, a name and a
password hashed by bcrypt. A user can also sign in through Google or GitHub
(Passport strategies). Either way the server issues a JSON Web Token. The
token, sent back in the `Authorization` header, lets its holder read their
own profile and create, update and delete their own posts.

This project models, in Dafny:

- **the store** (`store.dfy`, class `Store.Db`). The users collection is a
  sequence in insertion order. MongoDB's `findOne` with no sort returns any
  one match. Every user query here is on a uniquely indexed field, and
  `Store.FindFirstUnique` proves that at most one user matches. So the model
  may take the first match. The
  posts collection is a map from id to post, and a counter hands out fresh
  ids. Saving a user runs schema validation first and then the sparse unique
  indexes. The post update path runs neither. The invariant `Db.Valid` holds
  that every stored user validates and that no two users share a key. Every
  store method preserves it.
- **the schemas** (`users_model.dfy`, `post_model.dfy`). These hold the
  conditional `required` rules, the truthiness of JavaScript, the sparse
  unique indexes and the `$set` update of a post.
- **the federated verify callback** (`passport.dfy`). Google and GitHub run
  one procedure, parameterised by the provider: find the account by provider
  id, else link the account holding the profile's first email, else create
  an account from the profile.
- **the OAuth routes** (`auth_routes.dfy`): `generateToken` and the two
  callback handlers.
- **the HTTP handlers** (`server.dfy`). These are the `verifyToken`
  middleware, register, login, current user, logout, and creating, updating
  and deleting a post. Each handler is a method over the store. It returns
  the reply it sends: a status, a message and a body.
- **the libraries the handlers lean on**, as far as the handlers depend on
  them. `js.dfy` covers `undefined`, truthiness, `||` and `String.split`.
  `bcrypt.dfy` is an ideal hash with `compare`. `jwt.dfy` has tokens with a
  concrete compact text form, signing, and verification against a clock.
- **request sequences** (`scenarios.dfy`): register and then log in; use
  the token before and after it expires; a stranger's writes to a post;
  repeated federated logins; and linking a second provider by email.

The time, the JWT secret, the bcrypt salt and the request fields are
parameters. An absent request field or document field is `None`.

## Model

| member | source | states |
|---|---|---|
| Js.Split | index.js:40 | `split(c)` yields at least one piece, no piece contains `c`, and joining the pieces with `c` gives back the input |
| Js.LocalPart | config/passport.js:45 | `split('@')[0]` is the longest prefix without `@`: the whole text when it has no `@`, else the text before the first `@` |
| Bcrypt.Hash | index.js:75-76 | a password is hashed with a salt made for 10 rounds |
| Bcrypt.CompareHash | index.js:110 | a password matches its own hash whatever the salt; another password matches exactly when it agrees on the first 72 characters, so among passwords of at most 72 characters only the password itself matches |
| Bcrypt.LongPasswordsCollide | index.js:110 | text appended after the first 72 characters of a password is ignored, so the longer password logs in too |
| Jwt.Sign | index.js:115-124 | a signed token is one word: it holds no space, so it survives the header split |
| Jwt.Verify | index.js:50 | a token that verifies has not expired: now is strictly before its expiry |
| Jwt.VerifySigned | index.js:50 | a token signed with the secret verifies, to exactly the signed claims and times, until it expires; from then on it is rejected as expired |
| Jwt.VerifyOnlySigned | index.js:50 | any text that verifies is the signing, with that secret, of the token it decodes to, so a text altered after signing is rejected |
| Jwt.OtherSecretRejected | index.js:50 | a token signed with another secret is rejected with a bad signature |
| UsersModel.WithProviderId | config/passport.js:31 | assigning `googleId` or `githubId` sets that field and changes no other |
| UsersModel.SchemaRequirements | models/users.model.js:5-29 | a user without a truthy name never validates; with a truthy provider id, the name alone suffices; with neither provider id, the user validates exactly when its username is truthy and its password is present |
| UsersModel.ProviderIdKeepsValid | models/users.model.js:7-10 | setting a non-empty provider id keeps a valid user valid and lifts the username and password requirements |
| UsersModel.AbsentNeverClashes | models/users.model.js:11-38 | the email and provider-id indexes are sparse: two records without email or provider id collide only on the id or the username, so valid email-less local accounts with distinct ids and usernames can be stored together |
| PostModel.PostRequirements | models/post.model.js:5-15 | a post validates exactly when its title and content are present and non-empty; the optional image and the timestamps play no part |
| PostModel.ApplyPatch | index.js:211-215 | `$set` overwrites exactly the fields the body names, `author` included, and keeps every other field |
| PostModel.PatchSkipsValidation | index.js:211-215 | the update runs no validator, so a valid post can be given an empty title |
| Store.FindFirst | index.js:67 | the lookup returns a matching user, or nothing exactly when no user matches; it takes the first match, which `FindFirstUnique` shows is the only one |
| Store.FindFirstUnique | models/users.model.js:11-38 | under the unique indexes, any user matching a key query is the one `findOne` returns |
| Store.SaveKeepsTable | models/users.model.js:3-45 | a save the store accepts, whether an insert or an update in place, keeps every user valid and every key unique |
| Store.Db.NewId | index.js:78-82 | a new document gets an id that no stored document has |
| Store.Db.InsertUser | index.js:84 | saving a new user fails with a validation error, then with a duplicate key, or appends the user stamped with `createdAt` and `updatedAt` |
| Store.Db.SaveUser | config/passport.js:35 | saving a loaded user fails as a new save would, ignoring its own old record, or replaces it in place with `updatedAt` stamped |
| Store.Db.InsertPost | index.js:174 | saving a new post fails validation without a title or content, or stores it stamped under its own id |
| Store.Db.PatchPost | index.js:211-215 | the update replaces the post with the patched post, `updatedAt` stamped, and touches nothing else |
| Store.Db.RemovePost | index.js:239 | the delete removes that post and no other |
| Passport.GeneratedUsername | config/passport.js:45 | the fallback username is `user_` followed by the profile id |
| Passport.NewUsername | config/passport.js:93-101 | GitHub's own username when truthy; else the first email up to its first `@`; else `user_<id>`; Google skips the first step |
| Passport.NewName | config/passport.js:95 | the display name; for GitHub, the provider username when the display name is not truthy |
| Passport.NewAccount | config/passport.js:41-47 | a new account carries the provider id, no password and no other provider id; its email and avatar are the first entries, or `""` (present, not absent) when the list is empty |
| Passport.Linked | config/passport.js:27-37 | linking sets the calling provider's id, replaces the avatar only when a photo exists, and changes nothing else, the other provider's id included |
| Passport.NewAccountValid | config/passport.js:41-47 | an account created from a profile validates exactly when the profile id is non-empty and the account gets a truthy name; a Google profile without a display name can never sign up |
| Passport.Resolve | config/passport.js:20-38 | the step taken: the account with the provider id; else the account whose email is the first email; else creation; with the search results that justify it |
| Passport.OnlyFirstEmailCounts | config/passport.js:27-46 | emails after the first change neither the step taken nor the account created (under any id) or linked, whatever the photos |
| Passport.OnlyFirstPhotoCounts | config/passport.js:27-46 | photos after the first change neither the step taken nor the account created (under any id) or linked, whatever the emails |
| Passport.LinkSaves | config/passport.js:31-35 | saving a linked account never fails when the profile id is non-empty |
| Passport.EmptyEmailCollides | config/passport.js:44 | once one account holds the email `""`, every new account from an email-less profile is refused: as a duplicate key when it validates, else by validation |
| Passport.GeneratedUsernameCollides | config/passport.js:41-47 | once an account has the username `user_<id>`, a new account from an email-less profile with that id is refused: as a duplicate key when it validates, else by validation |
| Passport.EmailDerivedGeneratedUsername | config/passport.js:45 | a Google account whose first email is `user_<id>@<domain>` gets the username `user_<id>`, so such a username can exist before the fallback needs it |
| Passport.Authenticate | config/passport.js:17-55 | the callback (GitHub's at lines 69-107 is the same) returns the known account and writes nothing; or links and saves; or creates and saves; a refused save returns the error and writes nothing; a returned account is then found by its provider id |
| AuthRoutes.UsernameClaim | routes/auth.routes.js:11 | the `username` claim is the username when truthy, else the email |
| AuthRoutes.GenerateToken | routes/auth.routes.js:9-15 | the issued token is one word |
| AuthRoutes.GeneratedTokenVerifies | routes/auth.routes.js:9-15 | an OAuth token verifies to the user's id and username-or-email for exactly seven days from issue |
| AuthRoutes.Callback | routes/auth.routes.js:23-31 | provider failure redirects to `/auth`; a strategy error becomes a 500; success redirects to the frontend with the token of the returned user and that user |
| AuthRoutes.CallbackIssuesToken | routes/auth.routes.js:39-47 | a token is issued exactly when the strategy authenticated a user, and it verifies to that user's claims until it expires |
| Server.AuthFailure.Message | index.js:43-54 | the middleware's 401 message is "Access denied. Provied the token" (sic) when no token is present, and "Invalid token provided" exactly when a token was present but refused |
| Server.Reply.Status | index.js:44-245 | the status is one of 200, 201, 400, 401, 403, 404 and 500; it is 2xx exactly for the success replies, 201 exactly for the two creations, 400 exactly for missing details or a taken username, 401 exactly for a middleware refusal or a wrong password, 403 exactly for a caller who is not the author, 404 exactly for a missing user or post, and 500 exactly for a server error |
| Server.Reply.Message | index.js:44-241 | every reply but the current user's carries a `message`; a middleware refusal carries the middleware's message; a 403 names the refused action: "Not authorised to update the post" for an update, "Not authorised to delete the post" for a delete |
| Server.BearerToken | index.js:40 | the token taken from the header is non-empty and holds no space; there is none without a header |
| Server.BearerTokenIsSecondWord | index.js:40 | the token is the second space-separated word whatever the first word is: the scheme is never checked |
| Server.NoSecondWord | index.js:40-47 | a header with no space, or with an empty second word, carries no token |
| Server.VerifyToken | index.js:39-56 | with no token, the request is refused as lacking one, and only then; a request that passes carries a token this server signed for its claims and not yet expired; any other rejection reports why `jwt.verify` refused |
| Server.SignedTokenPasses | index.js:49-52 | a header with a token signed by the server passes with exactly its claims until expiry, and is refused as expired after |
| Server.ForeignTokenRefused | index.js:53-55 | a token signed with another secret is refused |
| Server.PublicKeepsAllButPassword | index.js:144 | the `select("-password")` projection drops the password hash and no other field |
| Server.Register | index.js:58-94 | a falsy field gives 400 and writes nothing; a taken username gives 400 and writes nothing; otherwise exactly one user is added, with the given username and name, the hash of the password, and no email, provider id or avatar |
| Server.LoginToken | index.js:115-124 | the login token is one word |
| Server.LoginTokenVerifies | index.js:115-124 | a login token verifies to the account's id and username for exactly 24 hours |
| Server.LoginTokenPasses | index.js:115-124 | a login token under any one-word scheme passes the middleware for 24 hours, then is refused as expired |
| Server.Login | index.js:96-140 | the checks run in order: a falsy field gives 400; an unknown username gives 404; an account without a hash gives 500; a mismatched password gives 401; otherwise 200, with a 24-hour token for the id and username and a body of only the id, username and name; nothing is written |
| Server.Me | index.js:142-156 | the middleware's refusal, or the account with the token's id without its password, or 404 when it no longer exists; nothing is written |
| Server.Logout | index.js:158-160 | logout always succeeds with its message and revokes nothing |
| Server.CreatePost | index.js:162-184 | after the middleware, a post is stored with the token's id as its author, never one from the body; without a title or content it is refused with 500 and nothing is stored |
| Server.UpdatePost | index.js:197-223 | checks run in order: the middleware, then 404 for a missing post, then 403 for a caller who is not the author (post unchanged); then exactly the named fields are overwritten, `author` included |
| Server.DeletePost | index.js:225-247 | the same three checks in order, then only that post is removed and returned as it was |
| Scenarios.RegisterThenLogin | index.js:58-140 | on a store where the username is free: registering succeeds; registering it again gives 400; a password differing within its first 72 characters gives 401; the right one logs in |
| Scenarios.SessionLookup | index.js:142-150 | a request passing the middleware under a stored account's id is shown that account |
| Scenarios.LocalAccountFlow | index.js:58-156 | on a fresh store: register, log in, and read the profile with the token; a day later the same token is refused as expired |
| Scenarios.StrangerRefused | index.js:197-247 | a caller who is not the author gets 403 on both update and delete, and the post is unchanged |
| Scenarios.SecondLogin | config/passport.js:20-24 | logging in with the profile of an account the provider-id lookup finds returns that account and leaves the users, posts and id counter unchanged |
| Scenarios.RepeatedProviderLogin | config/passport.js:20-55 | after a successful first login, a second login with the same profile returns the same account; together they add at most the one account, and hand out at most the one id, that the first login created |
| Scenarios.GoogleThenGitHub | config/passport.js:27-37 | signing up with Google and then logging in with GitHub under the same email yields one account holding both provider ids |

## Left out

- Express, CORS and cookie-parser setup, `app.listen` and console logging (index.js:1-37, 43, 60, 252-254; config/passport.js:52, 104) are wiring. Logging includes the register handler printing the plaintext password (index.js:60). The database connection (db/db.connect.js) is not part of this model.
- `GET /posts` with its `populate` join (index.js:186-195) is a read-only query whose behaviour belongs to Mongoose.
- The OAuth handshake with Google and GitHub, the scopes, the `proxy` option, and `serializeUser`/`deserializeUser` (config/passport.js:112-123) are left out. The model starts from the profile the provider returned. Sessions are off (`session: false`).
- The redirect URL is kept as its parts: the frontend URL, the token and the user. The `JSON.stringify` and `encodeURIComponent` bytes are not modelled.
- Cryptography is idealised. A token is a concrete dotted text, and its signature segment depends on the secret and the payload. The model does not capture that the signature hides the secret, nor base64url or HMAC-SHA256. The bcrypt hash keeps what it hashed, and two passwords collide only when they agree on their first 72 characters (bcrypt counts bytes; see the Bcrypt.CompareHash line); its one-wayness is not modelled. The salt and the clock are parameters.
- Request bodies are strings or absent. Non-string JSON values (objects, numbers) are not modelled. Nor are the 500 replies that a malformed post id would cause (an ObjectId cast error).
- Ids are natural numbers handed out by a counter, not ObjectIds. The post `author` reference to a user is not checked on save, as in Mongoose.
- `$set` keys in the body other than `title`, `content`, `image` and `author` are not modelled. Keys outside the post schema are dropped by Mongoose under strict mode. Keys naming the schema paths `_id`, `createdAt` or `updatedAt` cannot be expressed by `PostPatch`: a body naming them is not modelled.
- Requests are atomic and sequential. The race between the username check and the save in register, and between lookup and save in the federated callback, is not modelled.
- Bcrypt.CompareHash: counts bcrypt's 72-byte limit in characters. The two agree for ASCII passwords. A password with multi-byte UTF-8 characters reaches the limit sooner, so bcrypt ignores more of it than the model does.
- Server.Register: never returns the 500 "Error registering user". In a sequential store the save cannot be refused, because the only index it could violate was checked just before.
- Server.CreatePost: the duplicate-key failure of the `_id` index cannot arise, because ids are fresh.

Behaviours of the code worth noting:

- `author` is not protected on update. The owner can set it to any id (index.js:211-215).
- An error inside the verify callback (`done(err, null)`) goes to Express's error handler as a 500. Only a provider failure redirects to `/auth`.
- The user serialised into the success redirect carries no provider tag.
- Local registration stores no email. A "local account linked by email" therefore only arises for an account first created through the other provider.
- Logging in by username to an account created through a provider, which has no password, makes `bcrypt.compare` throw. The handler then answers 500 "Error logging in", not 401.

=== FILE: auth_routes.dfy ===
/** The OAuth routes: the token issued to a user a strategy returned, and the
    two callback handlers, which share one behaviour. */
module AuthRoutes {
  import opened Js
  import opened Jwt
  import opened UsersModel
  import opened Store

  /** `expiresIn: "7d"`, in seconds. */
  const Week: nat := 7 * 24 * 60 * 60

  /** The `username` claim of an OAuth token: the username when truthy, else the email as it is. */
  function UsernameClaim(u: User): (r: Option<string>)
    ensures Truthy(u.username) ==> r == u.username
    ensures !Truthy(u.username) ==> r == u.email
  {
    Or(u.username, u.email)
  }

  /** `generateToken(user)` at time `now`. */
  function GenerateToken(u: User, secret: string, now: nat): (token: string)
    ensures ' ' !in token
  {
    Sign(Token(Claims(u.id, UsernameClaim(u)), now, now + Week), secret)
  }

  /** An OAuth token verifies, with the server secret, to the user's id and
      username-or-email for exactly seven days from issue, and then expires. */
  lemma GeneratedTokenVerifies(u: User, secret: string, now: nat, at: nat)
    ensures Verify(GenerateToken(u, secret, now), secret, at) ==
      if at < now + Week then Ok(Token(Claims(u.id, UsernameClaim(u)), now, now + Week)) else Err(Expired)
  {
    VerifySigned(Token(Claims(u.id, UsernameClaim(u)), now, now + Week), secret, at);
  }

  /** What `passport.authenticate` reports to the callback route: the strategy
      returned a user, the provider reported a failure, or the verify callback
      ended in `done(err, null)`. */
  datatype StrategyOutcome = Authenticated(user: User) | ProviderFailed | Errored(error: DbError)

  /** Where a callback redirects: the failure path `/auth`, or the frontend's
      `/oauth-callback` page with the token inserted verbatim and the user
      document serialised as JSON and URI-encoded. */
  datatype Location = AuthPage | Landing(frontendUrl: string, token: string, user: User)

  /** A callback's response: a redirect, or the error Express reports when the
      strategy passes an error on. */
  datatype CallbackResponse = Redirect(to: Location) | InternalError(error: DbError)

  /** The `/google/callback` and `/github/callback` handlers (the same code). */
  function Callback(outcome: StrategyOutcome, frontendUrl: string, secret: string, now: nat): (r: CallbackResponse)
    ensures outcome.ProviderFailed? ==> r == Redirect(AuthPage)
    ensures outcome.Errored? ==> r == InternalError(outcome.error)
    ensures outcome.Authenticated? ==>
      r.Redirect? && r.to.Landing? && r.to.frontendUrl == frontendUrl && r.to.user == outcome.user &&
      r.to.token == GenerateToken(outcome.user, secret, now)
  {
    match outcome
      case ProviderFailed => Redirect(AuthPage)
      case Errored(e) => InternalError(e)
      case Authenticated(u) => Redirect(Landing(frontendUrl, GenerateToken(u, secret, now), u))
  }

  /** Only a successful authentication issues a token, and the token a
      callback hands out authenticates exactly the user the strategy returned. */
  lemma CallbackIssuesToken(outcome: StrategyOutcome, frontendUrl: string, secret: string, now: nat, at: nat)
    ensures var r := Callback(outcome, frontendUrl, secret, now);
      (r.Redirect? && r.to.Landing?) <==> outcome.Authenticated?
    ensures var r := Callback(outcome, frontendUrl, secret, now);
      outcome.Authenticated? && at < now + Week ==>
        Verify(r.to.token, secret, at) == Ok(Token(Claims(outcome.user.id, UsernameClaim(outcome.user)), now, now + Week))
  {
    if outcome.Authenticated? {
      GeneratedTokenVerifies(outcome.user, secret, now, at);
    }
  }
}

=== FILE: bcrypt.dfy ===
/** Password hashing as the handlers use it: `bcrypt.genSalt(10)`, `bcrypt.hash`
    and `bcrypt.compare`. bcrypt reads only the first 72 bytes of a password,
    so two passwords that agree there share every hash. Apart from that the
    hash is ideal: the model keeps what was hashed so that `Compare` can be
    defined; the salt, which the library draws at random, is a parameter. */
module Bcrypt {

  /** The cost factor the register handler passes to `genSalt`. */
  const SaltRounds: nat := 10

  /** How much of a password bcrypt reads; the rest is ignored. */
  const MaxPasswordLength: nat := 72

  /** A stored password hash. */
  datatype Digest = Digest(rounds: nat, salt: nat, preimage: string)

  /** The part of a password bcrypt hashes: at most its first 72 characters. */
  function Significant(password: string): (r: string)
    ensures |r| <= MaxPasswordLength && r <= password
    ensures |password| <= MaxPasswordLength ==> r == password
  {
    if |password| <= MaxPasswordLength then password else password[..MaxPasswordLength]
  }

  /** `bcrypt.hash(password, salt)` with a salt made for `SaltRounds`. */
  function Hash(password: string, salt: nat): (d: Digest)
    ensures d.rounds == SaltRounds
  {
    Digest(SaltRounds, salt, password)
  }

  /** `bcrypt.compare(password, digest)`: the significant parts agree. */
  predicate Compare(password: string, digest: Digest)
  {
    Significant(password) == Significant(digest.preimage)
  }

  /** A password matches its own hash, whatever the salt; another password
      matches exactly when it agrees on the first 72 characters, so among
      passwords of at most 72 characters only the password itself does. */
  lemma CompareHash(password: string, attempt: string, salt: nat)
    ensures Compare(password, Hash(password, salt))
    ensures Compare(attempt, Hash(password, salt)) <==> Significant(attempt) == Significant(password)
    ensures |attempt| <= MaxPasswordLength && |password| <= MaxPasswordLength ==>
      (Compare(attempt, Hash(password, salt)) <==> attempt == password)
  {
  }

  /** Any text appended after the first 72 characters of a password is
      ignored: the longer password logs in to the account. */
  lemma LongPasswordsCollide(password: string, tail: string, salt: nat)
    requires |password| == MaxPasswordLength
    ensures Compare(password + tail, Hash(password, salt))
  {
    assert (password + tail)[..MaxPasswordLength] == password;
  }
}

=== FILE: js.dfy ===
/** The JavaScript value semantics the backend leans on: a property that may be
    `undefined`, truthiness of strings, the `||` operator, and
    `String.prototype.split` with a one-character separator. */
module Js {

  /** `None` is `undefined` (a property that is absent); `Some(v)` a present value. */
  datatype Option<+T> = None | Some(value: T)

  /** The outcome of an operation that can fail with an error value. */
  datatype Result<+T, +E> = Ok(value: T) | Err(error: E)

  /** JavaScript truthiness of a possibly absent string: `undefined` and `""` are falsy. */
  predicate Truthy(v: Option<string>)
  {
    v.Some? && v.value != ""
  }

  /** `a || b` on possibly absent strings: `a` when it is truthy, otherwise `b` as it is. */
  function Or(a: Option<string>, b: Option<string>): Option<string>
  {
    if Truthy(a) then a else b
  }

  /** The position of the first occurrence of `c` in `s`, if there is one. */
  function IndexOf(s: string, c: char): (r: Option<nat>)
    ensures r.None? <==> c !in s
    ensures r.Some? ==> r.value < |s| && s[r.value] == c && c !in s[..r.value]
  {
    if s == [] then None
    else if s[0] == c then Some(0)
    else match IndexOf(s[1..], c)
      case None => None
      case Some(i) =>
        assert s[..i + 1] == [s[0]] + s[1..][..i];
        Some(i + 1)
  }

  /** The pieces of a separated text glued back together with the separator. */
  function Join(parts: seq<string>, c: char): string
    requires |parts| >= 1
  {
    if |parts| == 1 then parts[0] else parts[0] + [c] + Join(parts[1..], c)
  }

  /** `s.split(c)`: the pieces between successive occurrences of `c`. The pieces
      hold no separator and glue back to `s`, which determines them (see SplitJoin). */
  function Split(s: string, c: char): (r: seq<string>)
    ensures |r| >= 1
    ensures forall k :: 0 <= k < |r| ==> c !in r[k]
    ensures Join(r, c) == s
    decreases |s|
  {
    match IndexOf(s, c)
      case None => [s]
      case Some(i) =>
        var rest := Split(s[i + 1..], c);
        assert s == s[..i] + [c] + s[i + 1..];
        [s[..i]] + rest
  }

  /** `s.split(c)[k]`: `undefined` past the last piece. */
  function Piece(s: string, c: char, k: nat): Option<string>
  {
    var parts := Split(s, c);
    if k < |parts| then Some(parts[k]) else None
  }

  /** `s.split('@')[0]`: the text before the first `@`, or all of `s` when it has none. */
  function LocalPart(s: string): (r: string)
    ensures '@' !in r
    ensures |r| <= |s| && r == s[..|r|]
    ensures |r| < |s| ==> s[|r|] == '@'
    ensures '@' !in s ==> r == s
  {
    var parts := Split(s, '@');
    JoinStartsWithFirst(parts, '@');
    parts[0]
  }

  /** A joined text starts with its first piece, followed by the separator when there are more. */
  lemma JoinStartsWithFirst(parts: seq<string>, c: char)
    requires |parts| >= 1
    ensures |parts[0]| <= |Join(parts, c)|
    ensures Join(parts, c)[..|parts[0]|] == parts[0]
    ensures |parts| > 1 <==> |parts[0]| < |Join(parts, c)|
    ensures |parts| > 1 ==> Join(parts, c)[|parts[0]|] == c
  {
  }

  /** A character other than the separator occurs in a joined text only if it occurs in a piece. */
  lemma {:induction false} JoinAvoids(parts: seq<string>, c: char, d: char)
    requires |parts| >= 1 && d != c
    requires forall k :: 0 <= k < |parts| ==> d !in parts[k]
    ensures d !in Join(parts, c)
  {
    if |parts| > 1 {
      JoinAvoids(parts[1..], c, d);
      assert d !in parts[0];
    }
  }

  /** Splitting undoes joining when no piece holds the separator. */
  lemma {:induction false} SplitJoin(parts: seq<string>, c: char)
    requires |parts| >= 1
    requires forall k :: 0 <= k < |parts| ==> c !in parts[k]
    ensures Split(Join(parts, c), c) == parts
  {
    if |parts| == 1 {
      assert IndexOf(parts[0], c).None?;
    } else {
      var rest := Join(parts[1..], c);
      assert Join(parts, c) == parts[0] + [c] + rest;
      SplitCons(parts[0], c, rest);
      SplitJoin(parts[1..], c);
      assert parts == [parts[0]] + parts[1..];
    }
  }

  /** In `a + b`, where `a` has no `c` and `b` starts with `c`, the first `c` is at `|a|`. */
  lemma IndexOfAfter(a: string, c: char, b: string)
    requires c !in a && b != [] && b[0] == c
    ensures IndexOf(a + b, c) == Some(|a|)
  {
    var s := a + b;
    assert s[|a|] == c;
    assert s[..|a|] == a;
    var i := IndexOf(s, c);
    assert i.Some?;
    assert i.value == |a|;
  }

  /** Splitting `a c b`, where `a` has no `c`, gives `a` and then the pieces of `b`. */
  lemma SplitCons(a: string, c: char, b: string)
    requires c !in a
    ensures Split(a + [c] + b, c) == [a] + Split(b, c)
  {
    var s := a + [c] + b;
    IndexOfAfter(a, c, [c] + b);
    assert a + ([c] + b) == s;
    assert s[..|a|] == a;
    assert s[|a| + 1..] == b;
  }

  /** The first piece of `a + b` is `a` when `a` has no `c` and `b` is empty or starts with `c`. */
  lemma SplitHead(a: string, c: char, b: string)
    requires c !in a && (b == [] || b[0] == c)
    ensures Split(a + b, c)[0] == a
  {
    if b == [] {
      assert a + b == a;
    } else {
      IndexOfAfter(a, c, b);
      assert (a + b)[..|a|] == a;
    }
  }
}

=== FILE: jwt.dfy ===
/** Bearer tokens as the backend issues and checks them with `jsonwebtoken`.
    A token is a record of claims plus its issue and expiry times; `Sign`
    turns it into the text that travels in the `Authorization` header and
    `Verify` turns such a text back into the record, given the server secret
    and the current time.

    The text is a compact serialisation in five dot-separated segments: the
    `id` claim, the `username` claim, `iat` and `exp` (decimal seconds), and a
    signature segment. Strings are escaped so that no segment holds a dot or a
    space, as base64url keeps a real token free of both. */
module Jwt {
  import opened Js

  /** The claims a handler signs: the user's id and a `username` claim that
      `JSON.stringify` drops when it is `undefined`. */
  datatype Claims = Claims(id: nat, username: Option<string>)

  /** A decoded token: its claims, `iat` and `exp`, in seconds. */
  datatype Token = Token(claims: Claims, iat: nat, exp: nat)

  /** Why `jwt.verify` throws. */
  datatype JwtError = Malformed | InvalidSignature | Expired

  /* ------------------------------------------------------------------ */
  /* Decimal numerals                                                   */

  predicate IsDigit(c: char)
  {
    '0' <= c <= '9'
  }

  predicate AllDigits(s: string)
  {
    forall k :: 0 <= k < |s| ==> IsDigit(s[k])
  }

  function Digit(d: nat): (c: char)
    requires d < 10
    ensures IsDigit(c) && c as int == 48 + d
  {
    (48 + d) as char
  }

  function DigitValue(c: char): (d: nat)
    requires IsDigit(c)
    ensures d < 10 && Digit(d) == c
  {
    c as int - 48
  }

  /** The decimal numeral of `n`: digits only, with no leading zero. */
  function Decimal(n: nat): (r: string)
    ensures Canonical(r)
    ensures n > 0 <==> r[0] != '0'
    decreases n
  {
    if n < 10 then [Digit(n)] else Decimal(n / 10) + [Digit(n % 10)]
  }

  /** The number a string of digits denotes. */
  function DigitsValue(s: string): nat
    requires AllDigits(s)
    decreases |s|
  {
    if s == [] then 0 else DigitsValue(s[..|s| - 1]) * 10 + DigitValue(s[|s| - 1])
  }

  /** A numeral in canonical form: non-empty, digits only, no leading zero. */
  predicate Canonical(s: string)
  {
    s != [] && AllDigits(s) && (s[0] == '0' ==> |s| == 1)
  }

  /** Reads a canonical numeral; anything else is malformed. */
  function ParseDecimal(s: string): Option<nat>
  {
    if Canonical(s) then Some(DigitsValue(s)) else None
  }

  lemma {:induction false} DecimalRoundTrip(n: nat)
    ensures ParseDecimal(Decimal(n)) == Some(n)
    decreases n
  {
    var s := Decimal(n);
    if n < 10 {
      assert s[..|s| - 1] == [];
      assert DigitsValue(s) == DigitValue(s[0]) == n;
    } else {
      DecimalRoundTrip(n / 10);
      assert s[..|s| - 1] == Decimal(n / 10);
      assert DigitsValue(s) == (n / 10) * 10 + n % 10 == n;
    }
  }

  /** A numeral whose first digit is not zero denotes a positive number. */
  lemma {:induction false} LeadingDigitPositive(s: string)
    requires AllDigits(s) && s != [] && s[0] != '0'
    ensures DigitsValue(s) > 0
    decreases |s|
  {
    if |s| > 1 {
      LeadingDigitPositive(s[..|s| - 1]);
    }
  }

  /** Every canonical numeral is the numeral of the number it denotes. */
  lemma {:induction false} DecimalCanonical(s: string)
    requires Canonical(s)
    ensures Decimal(DigitsValue(s)) == s
    decreases |s|
  {
    if |s| > 1 {
      var p := s[..|s| - 1];
      LeadingDigitPositive(p);
      DecimalCanonical(p);
      var v := DigitsValue(s);
      assert v / 10 == DigitsValue(p) && v % 10 == DigitValue(s[|s| - 1]);
      assert s == p + [s[|s| - 1]];
    }
  }

  /* ------------------------------------------------------------------ */
  /* Escaped strings                                                    */

  function EscapeChar(c: char): string
  {
    if c == ' ' then "~s" else if c == '.' then "~d" else if c == '~' then "~~" else [c]
  }

  function Unescaped(c: char): Option<char>
  {
    if c == 's' then Some(' ') else if c == 'd' then Some('.') else if c == '~' then Some('~') else None
  }

  /** `s` with every space, dot and tilde written as a two-character escape. */
  function Escape(s: string): (r: string)
    ensures ' ' !in r && '.' !in r
  {
    if s == [] then [] else EscapeChar(s[0]) + Escape(s[1..])
  }

  /** Reads an escaped string; a bare space or dot, or an unknown escape, is malformed. */
  function Unescape(s: string): Option<string>
    decreases |s|
  {
    if s == [] then Some([])
    else if s[0] == '~' then
      if |s| < 2 then None
      else match (Unescaped(s[1]), Unescape(s[2..]))
        case (Some(c), Some(u)) => Some([c] + u)
        case _ => None
    else if s[0] == ' ' || s[0] == '.' then None
    else match Unescape(s[1..])
      case Some(u) => Some([s[0]] + u)
      case None => None
  }

  lemma {:induction false} EscapeRoundTrip(s: string)
    ensures Unescape(Escape(s)) == Some(s)
  {
    if s != [] {
      var t := Escape(s[1..]);
      EscapeRoundTrip(s[1..]);
      var e := EscapeChar(s[0]);
      assert Escape(s) == e + t;
      if |e| == 2 {
        assert (e + t)[2..] == t;
      } else {
        assert (e + t)[1..] == t;
      }
      assert s == [s[0]] + s[1..];
    }
  }

  /** Every string `Unescape` accepts is the escape of what it reads. */
  lemma {:induction false} UnescapeCanonical(s: string)
    requires Unescape(s).Some?
    ensures Escape(Unescape(s).value) == s
    decreases |s|
  {
    var u := Unescape(s).value;
    if s != [] {
      if s[0] == '~' {
        UnescapeCanonical(s[2..]);
        assert u[1..] == Unescape(s[2..]).value;
        assert s == s[..2] + s[2..];
      } else {
        UnescapeCanonical(s[1..]);
        assert u[1..] == Unescape(s[1..]).value;
        assert s == [s[0]] + s[1..];
      }
    }
  }

  /** The segment of a claim that may be absent: empty when it is absent. */
  function OptionText(v: Option<string>): (r: string)
    ensures ' ' !in r && '.' !in r
  {
    match v
      case None => ""
      case Some(s) => "v" + Escape(s)
  }

  function ParseOption(s: string): Option<Option<string>>
  {
    if s == [] then Some(None)
    else if s[0] != 'v' then None
    else match Unescape(s[1..])
      case None => None
      case Some(u) => Some(Some(u))
  }

  lemma OptionRoundTrip(v: Option<string>)
    ensures ParseOption(OptionText(v)) == Some(v)
  {
    if v.Some? {
      EscapeRoundTrip(v.value);
      assert OptionText(v)[1..] == Escape(v.value);
    }
  }

  lemma OptionCanonical(s: string)
    requires ParseOption(s).Some?
    ensures OptionText(ParseOption(s).value) == s
  {
    if s != [] {
      UnescapeCanonical(s[1..]);
      assert s == [s[0]] + s[1..];
    }
  }

  /* ------------------------------------------------------------------ */
  /* Signing and verification                                           */

  /** The four payload segments of a token. */
  function PayloadSegments(t: Token): (r: seq<string>)
    ensures |r| == 4 && forall k :: 0 <= k < 4 ==> ' ' !in r[k] && '.' !in r[k]
  {
    [Decimal(t.claims.id), OptionText(t.claims.username), Decimal(t.iat), Decimal(t.exp)]
  }

  /** The signature segment: a tag that only the holder of `secret` computes for a
      payload. The model does not capture that the tag hides the secret. */
  function Mac(secret: string, payload: string): (r: string)
    ensures ' ' !in r && '.' !in r
  {
    Escape(secret + payload)
  }

  /** `jwt.sign`: the text of token `t` signed with `secret`. It holds no space. */
  function Sign(t: Token, secret: string): (text: string)
    ensures ' ' !in text
  {
    var payload := PayloadSegments(t);
    var parts := payload + [Mac(secret, Join(payload, '.'))];
    JoinAvoids(parts, '.', ' ');
    Join(parts, '.')
  }

  /** `jwt.verify(text, secret)` at time `now`: a text that is not five segments,
      or whose payload does not read, is malformed; then the signature is checked;
      then the expiry, which `now` must be strictly before. */
  function Verify(text: string, secret: string, now: nat): (r: Result<Token, JwtError>)
    ensures r.Ok? ==> now < r.value.exp
  {
    var parts := Split(text, '.');
    if |parts| != 5 then Err(Malformed)
    else match (ParseDecimal(parts[0]), ParseOption(parts[1]), ParseDecimal(parts[2]), ParseDecimal(parts[3]))
      case (Some(id), Some(username), Some(iat), Some(exp)) =>
        if parts[4] != Mac(secret, Join(parts[..4], '.')) then Err(InvalidSignature)
        else if now < exp then Ok(Token(Claims(id, username), iat, exp))
        else Err(Expired)
      case _ => Err(Malformed)
  }

  lemma SplitSigned(t: Token, secret: string)
    ensures Split(Sign(t, secret), '.') == PayloadSegments(t) + [Mac(secret, Join(PayloadSegments(t), '.'))]
  {
    var payload := PayloadSegments(t);
    SplitJoin(payload + [Mac(secret, Join(payload, '.'))], '.');
  }

  /** A signed token verifies with the same secret, to the very claims and
      times that were signed, exactly until it expires. */
  lemma VerifySigned(t: Token, secret: string, now: nat)
    ensures Verify(Sign(t, secret), secret, now) == if now < t.exp then Ok(t) else Err(Expired)
  {
    var payload := PayloadSegments(t);
    var parts := Split(Sign(t, secret), '.');
    SplitSigned(t, secret);
    assert parts[..4] == payload;
    DecimalRoundTrip(t.claims.id);
    DecimalRoundTrip(t.iat);
    DecimalRoundTrip(t.exp);
    OptionRoundTrip(t.claims.username);
  }

  /** Only signed texts verify: a text accepted under `secret` is the signing,
      with that secret, of the token it decodes to. So a text changed in any way
      after signing is rejected. */
  lemma VerifyOnlySigned(text: string, secret: string, now: nat)
    requires Verify(text, secret, now).Ok?
    ensures text == Sign(Verify(text, secret, now).value, secret)
  {
    var t := Verify(text, secret, now).value;
    var parts := Split(text, '.');
    DecimalCanonical(parts[0]);
    DecimalCanonical(parts[2]);
    DecimalCanonical(parts[3]);
    OptionCanonical(parts[1]);
    assert PayloadSegments(t) == parts[..4];
    assert parts == parts[..4] + [parts[4]];
  }

  /** Two secrets never give the same tag for one payload. */
  lemma MacSeparatesSecrets(a: string, b: string, payload: string)
    requires a != b
    ensures Mac(a, payload) != Mac(b, payload)
  {
    EscapeRoundTrip(a + payload);
    EscapeRoundTrip(b + payload);
    assert (a + payload)[..|a|] == a;
    assert (b + payload)[..|b|] == b;
  }

  /** A token signed with one secret is rejected under any other. */
  lemma OtherSecretRejected(t: Token, secret: string, other: string, now: nat)
    requires other != secret
    ensures Verify(Sign(t, secret), other, now) == Err(InvalidSignature)
  {
    var payload := Join(PayloadSegments(t), '.');
    var parts := Split(Sign(t, secret), '.');
    SplitSigned(t, secret);
    assert parts[..4] == PayloadSegments(t);
    DecimalRoundTrip(t.claims.id);
    DecimalRoundTrip(t.iat);
    DecimalRoundTrip(t.exp);
    OptionRoundTrip(t.claims.username);
    MacSeparatesSecrets(other, secret, payload);
  }
}

=== FILE: passport.dfy ===
/** The verify callback both OAuth strategies run once the provider has
    returned a profile: find the account by provider id, else link the account
    whose email is the profile's first email, else create an account from the
    profile. Google and GitHub run the same procedure; they differ only in the
    id field they use and in GitHub's name and username fallbacks. */
module Passport {
  import opened Js
  import opened UsersModel
  import opened Store

  /** The parts of a provider profile the callback reads. `username` is only
      ever read for GitHub; `emails` and `photos` are the `value`s of the
      profile's lists, in order (an absent list is empty). */
  datatype Profile = Profile(
    id: string,
    displayName: Option<string>,
    username: Option<string>,
    emails: seq<string>,
    photos: seq<string>)

  /** The fallback username when a profile has no email: `user_<id>`. */
  function GeneratedUsername(id: string): (r: string)
    ensures |r| == 5 + |id| && r[..5] == "user_" && r[5..] == id
  {
    "user_" + id
  }

  /** The username of a new account. GitHub's own username comes first when it
      is truthy; otherwise the part of the first email before its first `@`;
      otherwise `user_<id>`. Google never consults a provider username. */
  function NewUsername(provider: Provider, profile: Profile): (r: string)
    ensures provider == GitHub && Truthy(profile.username) ==> r == profile.username.value
    ensures (provider == Google || !Truthy(profile.username)) && |profile.emails| > 0 ==>
      '@' !in r && |r| <= |profile.emails[0]| && r == profile.emails[0][..|r|] &&
      (|r| < |profile.emails[0]| ==> profile.emails[0][|r|] == '@')
    ensures (provider == Google || !Truthy(profile.username)) && |profile.emails| == 0 ==>
      r == GeneratedUsername(profile.id)
  {
    var derived := if |profile.emails| > 0 then LocalPart(profile.emails[0]) else GeneratedUsername(profile.id);
    match provider
      case Google => derived
      case GitHub => Or(profile.username, Some(derived)).value
  }

  /** The name of a new account: the display name, falling back for GitHub to
      the provider username (which may itself be absent or empty). */
  function NewName(provider: Provider, profile: Profile): (r: Option<string>)
    ensures provider == Google ==> r == profile.displayName
    ensures provider == GitHub && Truthy(profile.displayName) ==> r == profile.displayName
    ensures provider == GitHub && !Truthy(profile.displayName) ==> r == profile.username
  {
    match provider
      case Google => profile.displayName
      case GitHub => Or(profile.displayName, profile.username)
  }

  /** The record `new User({...})` builds for a profile with no matching account:
      the provider id, no password, the other provider's id absent, and the first
      email and first photo, each replaced by `""` (present, not absent) when
      the list is empty. */
  function NewAccount(provider: Provider, profile: Profile, id: nat): (u: User)
    ensures u.id == id
    ensures ProviderId(u, provider) == Some(profile.id) && ProviderId(u, Other(provider)) == None
    ensures u.password == None
    ensures u.email == Some(if |profile.emails| > 0 then profile.emails[0] else "")
    ensures u.avatar == Some(if |profile.photos| > 0 then profile.photos[0] else "")
    ensures u.username == Some(NewUsername(provider, profile))
    ensures u.name == NewName(provider, profile)
  {
    var u := User(
      id := id,
      username := Some(NewUsername(provider, profile)),
      name := NewName(provider, profile),
      email := Some(if |profile.emails| > 0 then profile.emails[0] else ""),
      password := None,
      googleId := None,
      githubId := None,
      avatar := Some(if |profile.photos| > 0 then profile.photos[0] else ""),
      createdAt := 0,
      updatedAt := 0);
    WithProviderId(u, provider, profile.id)
  }

  /** The account after linking: the calling provider's id set to the profile
      id, the avatar replaced only when the profile has a photo, nothing else
      touched (the other provider's id, password, email, username, name). */
  function Linked(u: User, provider: Provider, profile: Profile): (r: User)
    ensures ProviderId(r, provider) == Some(profile.id)
    ensures ProviderId(r, Other(provider)) == ProviderId(u, Other(provider))
    ensures r.avatar == if |profile.photos| > 0 then Some(profile.photos[0]) else u.avatar
    ensures r.(googleId := u.googleId, githubId := u.githubId, avatar := u.avatar) == u
  {
    var r := WithProviderId(u, provider, profile.id);
    if |profile.photos| > 0 then r.(avatar := Some(profile.photos[0])) else r
  }

  /** A new account validates exactly when the profile id is non-empty and
      the account gets a truthy name; so a Google profile without a display
      name can never sign up. */
  lemma NewAccountValid(provider: Provider, profile: Profile, id: nat)
    ensures UserValid(NewAccount(provider, profile, id)) <==> profile.id != "" && Truthy(NewName(provider, profile))
    ensures provider == Google && !Truthy(profile.displayName) ==> !UserValid(NewAccount(provider, profile, id))
  {
  }

  /** Which of the three steps the callback takes against a users table. */
  datatype Step = Known(at: nat) | Link(at: nat) | Create

  /** The step taken: an account that already has the provider id; else, when
      the profile has an email, the account with that email; else a new account.
      Only the first email is ever consulted. */
  function Resolve(users: seq<User>, provider: Provider, profile: Profile): (s: Step)
    ensures s.Known? ==> s.at < |users| && ProviderId(users[s.at], provider) == Some(profile.id)
    ensures !s.Known? ==> forall k :: 0 <= k < |users| ==> ProviderId(users[k], provider) != Some(profile.id)
    ensures s.Link? ==> s.at < |users| && |profile.emails| > 0 && users[s.at].email == Some(profile.emails[0])
    ensures s.Create? && |profile.emails| > 0 ==>
      forall k :: 0 <= k < |users| ==> users[k].email != Some(profile.emails[0])
  {
    match FindFirst(users, ByProviderId(provider, profile.id))
      case Some(i) => Known(i)
      case None =>
        if |profile.emails| == 0 then Create
        else match FindFirst(users, ByEmail(profile.emails[0]))
          case Some(j) => Link(j)
          case None => Create
  }

  /** Emails after the first make no difference, whatever the photos and
      whatever id the new account would get. */
  lemma OnlyFirstEmailCounts(users: seq<User>, provider: Provider, profile: Profile, moreEmails: seq<string>, id: nat)
    requires |profile.emails| > 0
    ensures var longer := profile.(emails := profile.emails[..1] + moreEmails);
      && Resolve(users, provider, longer) == Resolve(users, provider, profile)
      && NewAccount(provider, longer, id) == NewAccount(provider, profile, id)
      && (forall u :: Linked(u, provider, longer) == Linked(u, provider, profile))
  {
  }

  /** Photos after the first make no difference, whatever the emails and
      whatever id the new account would get. */
  lemma OnlyFirstPhotoCounts(users: seq<User>, provider: Provider, profile: Profile, morePhotos: seq<string>, id: nat)
    requires |profile.photos| > 0
    ensures var longer := profile.(photos := profile.photos[..1] + morePhotos);
      && Resolve(users, provider, longer) == Resolve(users, provider, profile)
      && NewAccount(provider, longer, id) == NewAccount(provider, profile, id)
      && (forall u :: Linked(u, provider, longer) == Linked(u, provider, profile))
  {
  }

  /** Linking with a truthy provider id never fails to save: the conditional
      requirements only weaken, the id is free (step one found no account with
      it), and no other indexed field changes. */
  lemma LinkSaves(users: seq<User>, provider: Provider, profile: Profile)
    requires UsersTable(users)
    requires Resolve(users, provider, profile).Link?
    requires profile.id != ""
    ensures var j := Resolve(users, provider, profile).at;
      SaveError(users, Linked(users[j], provider, profile), Some(j)) == None
  {
    var j := Resolve(users, provider, profile).at;
    var u := users[j];
    var v := Linked(u, provider, profile);
    ProviderIdKeepsValid(u, provider, profile.id);
    forall k | 0 <= k < |users| && k != j ensures !SharesKey(users[k], v) {
      if k < j {
        assert !SharesKey(users[k], u);
      } else {
        assert !SharesKey(u, users[k]);
      }
      assert ProviderId(users[k], provider) != Some(profile.id);
    }
  }

  /** A profile without emails gets the email `""`, which is a present value
      in the sparse email index. So once one such account exists, every later
      new account from an email-less profile is refused: by validation when
      it has no name, else as a duplicate key. */
  lemma EmptyEmailCollides(users: seq<User>, provider: Provider, profile: Profile, id: nat, k: nat)
    requires k < |users| && users[k].email == Some("")
    requires |profile.emails| == 0
    ensures Resolve(users, provider, profile).Create? || Resolve(users, provider, profile).Known?
    ensures var created := NewAccount(provider, profile, id);
      SaveError(users, created, None) == if UserValid(created) then Some(DuplicateKey) else Some(ValidationFailed)
  {
    var created := NewAccount(provider, profile, id);
    assert SharesKey(users[k], created);
  }

  /** The fallback username can be taken already: an account whose email
      begins `user_<id>@` got the username `user_<id>`, so a later new account
      from an email-less profile with that id is refused, by validation when
      it has no name, else as a duplicate key. */
  lemma GeneratedUsernameCollides(users: seq<User>, provider: Provider, profile: Profile, id: nat, k: nat)
    requires k < |users| && users[k].username == Some(GeneratedUsername(profile.id))
    requires |profile.emails| == 0 && (provider == Google || !Truthy(profile.username))
    ensures var created := NewAccount(provider, profile, id);
      SaveError(users, created, None) == if UserValid(created) then Some(DuplicateKey) else Some(ValidationFailed)
  {
    var created := NewAccount(provider, profile, id);
    assert SharesKey(users[k], created);
  }

  /** The account a Google sign-in creates from a profile whose first email is
      `user_<id>@<domain>` has the username `user_<id>`. */
  lemma EmailDerivedGeneratedUsername(profile: Profile, id: string, domain: string, n: nat)
    requires |profile.emails| > 0 && profile.emails[0] == GeneratedUsername(id) + "@" + domain && '@' !in id
    ensures NewAccount(Google, profile, n).username == Some(GeneratedUsername(id))
  {
    var e := profile.emails[0];
    var g := GeneratedUsername(id);
    var r := NewUsername(Google, profile);
    assert '@' !in g by {
      assert g == "user_" + id;
    }
    assert e[..|g|] == g && e[|g|] == '@';
  }

  /** After a successful callback the provider-id lookup finds the returned account. */
  predicate FoundBy(users: seq<User>, provider: Provider, profile: Profile, u: User)
  {
    exists k :: 0 <= k < |users| && users[k] == u && FindFirst(users, ByProviderId(provider, profile.id)) == Some(k)
  }

  /** The strategy's verify callback, ending in `done(null, user)` (an `Ok`) or
      `done(err, null)` (an `Err`, with no account returned). */
  method Authenticate(db: Db, provider: Provider, profile: Profile, now: nat) returns (r: Result<User, DbError>)
    requires db.Valid()
    modifies db
    ensures db.Valid() && db.posts == old(db.posts)
    ensures r.Ok? ==> FoundBy(db.users, provider, profile, r.value)
    ensures var step := Resolve(old(db.users), provider, profile);
      step.Known? ==>
        r == Ok(old(db.users)[step.at]) && db.users == old(db.users) && db.nextId == old(db.nextId)
    ensures var step := Resolve(old(db.users), provider, profile);
      step.Link? ==>
        var linked := Linked(old(db.users)[step.at], provider, profile);
        var err := SaveError(old(db.users), linked, Some(step.at));
        && db.nextId == old(db.nextId)
        && (err.None? ==> r == Ok(linked.(updatedAt := now)) && db.users == old(db.users)[step.at := r.value])
        && (err.Some? ==> r == Err(err.value) && db.users == old(db.users))
        && (profile.id != "" ==> err.None?)
    ensures var step := Resolve(old(db.users), provider, profile);
      step.Create? ==>
        var created := NewAccount(provider, profile, old(db.nextId));
        var err := SaveError(old(db.users), created, None);
        && db.nextId == old(db.nextId) + 1
        && (err.None? ==> r == Ok(created.(createdAt := now, updatedAt := now)) && db.users == old(db.users) + [r.value])
        && (err.Some? ==> r == Err(err.value) && db.users == old(db.users))
  {
    var step := Resolve(db.users, provider, profile);
    var found := FindFirst(db.users, ByProviderId(provider, profile.id));
    if found.Some? {
      r := Ok(db.users[found.value]);
      assert FoundBy(db.users, provider, profile, r.value);
      return;
    }
    if |profile.emails| > 0 {
      var existing := FindFirst(db.users, ByEmail(profile.emails[0]));
      if existing.Some? {
        var j := existing.value;
        var user := db.users[j];
        user := WithProviderId(user, provider, profile.id);
        if |profile.photos| > 0 {
          user := user.(avatar := Some(profile.photos[0]));
        }
        assert user == Linked(db.users[j], provider, profile);
        if profile.id != "" {
          LinkSaves(db.users, provider, profile);
        }
        var err := db.SaveUser(j, user, now);
        if err.Some? {
          r := Err(err.value);
          return;
        }
        r := Ok(db.users[j]);
        FindFirstUnique(db.users, ByProviderId(provider, profile.id), j);
        assert FoundBy(db.users, provider, profile, r.value);
        return;
      }
    }
    var id := db.NewId();
    var user := NewAccount(provider, profile, id);
    var err := db.InsertUser(user, now);
    if err.Some? {
      r := Err(err.value);
      return;
    }
    r := Ok(db.users[|db.users| - 1]);
    FindFirstUnique(db.users, ByProviderId(provider, profile.id), |db.users| - 1);
    assert FoundBy(db.users, provider, profile, r.value);
  }
}

=== FILE: post_model.dfy ===
/** The post schema and the `$set` update the PUT handler applies to it. */
module PostModel {
  import opened Js

  /** A stored post. `author` is the id of the user that owns it. */
  datatype Post = Post(
    id: nat,
    title: Option<string>,
    image: Option<string>,
    content: Option<string>,
    author: nat,
    createdAt: nat,
    updatedAt: nat)

  /** Schema validation: `title` and `content` are required (non-empty strings);
      `image` is optional; `author` is always present in this model. */
  predicate PostValid(p: Post)
  {
    Truthy(p.title) && Truthy(p.content)
  }

  /** A post validates exactly when its title and content are present and
      non-empty; the image and the timestamps never matter. */
  lemma PostRequirements(p: Post, image: Option<string>, createdAt: nat, updatedAt: nat)
    ensures PostValid(p) <==> p.title.Some? && p.title.value != "" && p.content.Some? && p.content.value != ""
    ensures PostValid(p.(image := image, createdAt := createdAt, updatedAt := updatedAt)) == PostValid(p)
  {
  }

  /** The schema fields a request body can name; an absent one is not written. */
  datatype PostPatch = PostPatch(
    title: Option<string>,
    image: Option<string>,
    content: Option<string>,
    author: Option<nat>)

  /** `{ $set: body }`: every field the body names is overwritten, `author`
      included; every other field keeps its value. */
  function ApplyPatch(p: Post, patch: PostPatch): (r: Post)
    ensures r.id == p.id && r.createdAt == p.createdAt && r.updatedAt == p.updatedAt
    ensures patch.title.Some? ==> r.title == patch.title
    ensures patch.title.None? ==> r.title == p.title
    ensures patch.image.Some? ==> r.image == patch.image
    ensures patch.image.None? ==> r.image == p.image
    ensures patch.content.Some? ==> r.content == patch.content
    ensures patch.content.None? ==> r.content == p.content
    ensures patch.author.Some? ==> r.author == patch.author.value
    ensures patch.author.None? ==> r.author == p.author
  {
    p.(title := if patch.title.Some? then patch.title else p.title,
       image := if patch.image.Some? then patch.image else p.image,
       content := if patch.content.Some? then patch.content else p.content,
       author := if patch.author.Some? then patch.author.value else p.author)
  }

  /** The update path writes without running validators, so a valid post can
      be given an empty title. */
  lemma PatchSkipsValidation(p: Post)
    requires PostValid(p)
    ensures !PostValid(ApplyPatch(p, PostPatch(Some(""), None, None, None)))
  {
  }
}

=== FILE: scenarios.dfy ===
/** Request sequences, each stating what a client observes: the local
    account flow, a stranger's writes to a post, and the two federated login
    flows (a repeated login, and linking a second provider by email). */
module Scenarios {
  import opened Js
  import opened Bcrypt
  import opened Jwt
  import opened UsersModel
  import opened PostModel
  import opened Store
  import opened Passport
  import opened Server

  /** On any store where the username is free: register, register the same
      username again, log in with a wrong password (one that differs within
      the 72 characters bcrypt reads) and then the right one. The
      second registration and both logins leave the store as the first
      registration left it. */
  method RegisterThenLogin(db: Db, username: string, name: string, password: string, wrong: string,
                           secret: string, salt: nat, now: nat)
      returns (registered: Reply, again: Reply, rejected: Reply, login: Reply)
    requires db.Valid() && FindFirst(db.users, ByUsername(username)).None?
    requires username != "" && name != "" && password != "" && wrong != "" && Significant(wrong) != Significant(password)
    modifies db
    ensures registered == Registered(User(old(db.nextId), Some(username), Some(name), None,
                                          Some(Hash(password, salt)), None, None, None, now, now))
    ensures db.Valid() && db.users == old(db.users) + [registered.user]
    ensures again == UsernameTaken
    ensures rejected == InvalidPassword
    ensures login == LoggedIn(LoginToken(registered.user, secret, now),
                              LoginView(registered.user.id, Some(username), Some(name)))
  {
    registered := Register(db, Some(username), Some(name), Some(password), salt, now);
    var at := |db.users| - 1;
    var found := FindFirst(db.users, ByUsername(username));
    assert Matches(db.users[at], ByUsername(username));
    assert found == Some(at);
    again := Register(db, Some(username), Some(name), Some(wrong), salt, now);
    rejected := Login(db, Some(username), Some(wrong), secret, now);
    login := Login(db, Some(username), Some(password), secret, now);
  }

  /** `GET /auth/me` with a request that passes the middleware under the id
      of a stored account shows that account, without its password. */
  method SessionLookup(db: Db, header: Option<string>, k: nat, t: Token, secret: string, at: nat)
      returns (me: Reply)
    requires db.Valid() && k < |db.users|
    requires VerifyToken(header, secret, at) == Ok(t) && t.claims.id == db.users[k].id
    ensures me == CurrentUser(Public(db.users[k]))
  {
    FindFirstUnique(db.users, ById(t.claims.id), k);
    me := Me(db, header, secret, at);
  }

  /** Register and log in on a fresh store, then call `GET /auth/me` with the
      token, under any one-word scheme, before and after it expires. */
  method LocalAccountFlow(scheme: string, username: string, name: string, password: string, wrong: string,
                          secret: string, salt: nat, now: nat)
      returns (registered: Reply, login: Reply, me: Reply, expired: Reply)
    requires ' ' !in scheme && username != "" && name != "" && password != "" && wrong != "" && Significant(wrong) != Significant(password)
    ensures registered.Registered? && registered.user.id == 0
    ensures login == LoggedIn(LoginToken(registered.user, secret, now),
                              LoginView(0, Some(username), Some(name)))
    ensures me == CurrentUser(Public(registered.user))
    ensures expired == Denied(BadToken(Expired))
  {
    var db := new Db();
    var again, rejected;
    registered, again, rejected, login := RegisterThenLogin(db, username, name, password, wrong, secret, salt, now);
    var user := registered.user;
    var header := Some(scheme + " " + login.token);
    var t := Token(Claims(0, Some(username)), now, now + Day);
    assert VerifyToken(header, secret, now + 1) == Ok(t) by {
      LoginTokenPasses(scheme, user, secret, now, now + 1);
    }
    me := SessionLookup(db, header, 0, t, secret, now + 1);
    assert VerifyToken(header, secret, now + Day) == Err(BadToken(Expired)) by {
      LoginTokenPasses(scheme, user, secret, now, now + Day);
    }
    expired := Me(db, header, secret, now + Day);
  }

  /** A caller whose request passes the middleware under someone other than a
      post's author can neither change nor delete that post, and the post is
      left as it was. */
  method StrangerRefused(db: Db, header: Option<string>, secret: string, now: nat, id: nat, patch: PostPatch)
      returns (update: Reply, delete: Reply)
    requires db.Valid() && VerifyToken(header, secret, now).Ok?
    requires id in db.posts && db.posts[id].author != VerifyToken(header, secret, now).value.claims.id
    modifies db
    ensures db.Valid() && db.posts == old(db.posts) && db.users == old(db.users)
    ensures update == NotAuthorised(Update)
    ensures delete == NotAuthorised(Delete)
  {
    update := UpdatePost(db, header, secret, now, id, patch);
    delete := DeletePost(db, header, secret, now, id);
  }

  /** Logging in again with the profile of an account the provider-id lookup
      finds returns that account and writes nothing: no account is created or
      changed, and no id is handed out. */
  method SecondLogin(db: Db, provider: Provider, profile: Profile, u: User, later: nat)
      returns (second: Result<User, DbError>)
    requires db.Valid() && FoundBy(db.users, provider, profile, u)
    modifies db
    ensures db.Valid() && second == Ok(u)
    ensures db.users == old(db.users) && db.nextId == old(db.nextId) && db.posts == old(db.posts)
  {
    var k :| 0 <= k < |db.users| && db.users[k] == u &&
      FindFirst(db.users, ByProviderId(provider, profile.id)) == Some(k);
    assert Resolve(db.users, provider, profile) == Known(k);
    second := Authenticate(db, provider, profile, later);
  }

  /** Two logins in a row through the same provider: once the first succeeds,
      the second returns the same account, and the pair creates at most the
      one account the first login created, handing out at most its one id. */
  method RepeatedProviderLogin(db: Db, provider: Provider, profile: Profile, now: nat, later: nat)
      returns (first: Result<User, DbError>, second: Result<User, DbError>)
    requires db.Valid()
    modifies db
    ensures db.Valid()
    ensures var created := if Resolve(old(db.users), provider, profile).Create? then 1 else 0;
      first.Ok? ==>
        && second == first
        && db.nextId == old(db.nextId) + created
        && |db.users| == |old(db.users)| + created
  {
    first := Authenticate(db, provider, profile, now);
    if first.Ok? {
      second := SecondLogin(db, provider, profile, first.value, later);
    } else {
      second := Authenticate(db, provider, profile, later);
    }
  }

  /** Signing up through Google and then logging in through GitHub with the
      same first email yields one account carrying both provider ids; its
      username comes from the email, and it has no password. */
  method GoogleThenGitHub(googleId: string, githubId: string, displayName: string, email: string, now: nat)
      returns (viaGoogle: Result<User, DbError>, viaGitHub: Result<User, DbError>, accounts: nat)
    requires googleId != "" && githubId != "" && displayName != ""
    ensures viaGoogle.Ok? && viaGitHub.Ok?
    ensures viaGoogle.value.username == Some(LocalPart(email)) && viaGoogle.value.password.None?
    ensures viaGitHub.value.id == viaGoogle.value.id
    ensures viaGitHub.value.googleId == Some(googleId) && viaGitHub.value.githubId == Some(githubId)
    ensures accounts == 1
  {
    var db := new Db();
    var google := Profile(googleId, Some(displayName), None, [email], []);
    assert Resolve(db.users, Google, google) == Create;
    assert SaveError(db.users, NewAccount(Google, google, 0), None) == None;
    viaGoogle := Authenticate(db, Google, google, now);
    assert db.users == [viaGoogle.value];
    var github := Profile(githubId, None, None, [email], []);
    assert Resolve(db.users, GitHub, github) == Link(0);
    viaGitHub := Authenticate(db, GitHub, github, now + 1);
    accounts := |db.users|;
  }
}

=== FILE: server.dfy ===
/** The HTTP handlers of the server: the `verifyToken` middleware, local
    registration and login, the current-user and logout endpoints, and the
    three post-writing endpoints. Each handler is a method over the store that
    returns the reply it sends; the request body fields are parameters (an
    absent field is `None`), and so are the time, the JWT secret and the salt. */
module Server {
  import opened Js
  import opened Bcrypt
  import opened Jwt
  import opened UsersModel
  import opened PostModel
  import opened Store

  /** `expiresIn: "24h"`, in seconds. */
  const Day: nat := 24 * 60 * 60

  /* ------------------------------------------------------------------ */
  /* verifyToken                                                        */

  /** The token of an `Authorization` header: its second space-separated word,
      kept only when non-empty. The first word is never looked at, so the
      scheme need not be `Bearer`. */
  function BearerToken(authorization: Option<string>): (r: Option<string>)
    ensures authorization.None? ==> r.None?
    ensures r.Some? ==> r.value != "" && ' ' !in r.value
  {
    match authorization
      case None => None
      case Some(h) =>
        var word := Piece(h, ' ', 1);
        if Truthy(word) then word else None
  }

  /** Any one-word scheme followed by one space and a token yields the token,
      whatever comes after the next space. */
  lemma BearerTokenIsSecondWord(scheme: string, token: string, rest: string)
    requires ' ' !in scheme && ' ' !in token && token != ""
    requires rest == "" || rest[0] == ' '
    ensures BearerToken(Some(scheme + " " + token + rest)) == Some(token)
  {
    assert scheme + " " + token + rest == scheme + [' '] + (token + rest);
    SplitCons(scheme, ' ', token + rest);
    SplitHead(token, ' ', rest);
  }

  /** A header with no space, or whose second word is empty (two spaces in a
      row), carries no token. */
  lemma NoSecondWord(h: string, scheme: string, rest: string)
    requires ' ' !in scheme && (rest == "" || rest[0] == ' ')
    ensures ' ' !in h ==> BearerToken(Some(h)) == None
    ensures BearerToken(Some(scheme + " " + rest)) == None
  {
    assert scheme + " " + rest == scheme + [' '] + ("" + rest);
    SplitCons(scheme, ' ', "" + rest);
    SplitHead("", ' ', rest);
  }

  /** Why the middleware refuses a request, always with status 401. */
  datatype AuthFailure = NoToken | BadToken(reason: JwtError)
  {
    /** The `message` of the 401 reply: one text for a missing token, another
        for every reason `jwt.verify` gives. */
    function Message(): (m: string)
      ensures m != ""
      ensures m == "Invalid token provided" <==> this.BadToken?
      ensures this.NoToken? ==> m == "Access denied. Provied the token"
    {
      match this
        case NoToken => "Access denied. Provied the token"
        case BadToken(_) => "Invalid token provided"
    }
  }

  /** The `verifyToken` middleware: no token, a token `jwt.verify` rejects, or
      the decoded token the handler then reads as `req.user`. */
  function VerifyToken(authorization: Option<string>, secret: string, now: nat): (r: Result<Token, AuthFailure>)
    ensures r == Err(NoToken) <==> BearerToken(authorization).None?
    ensures r.Ok? ==> BearerToken(authorization) == Some(Sign(r.value, secret)) && now < r.value.exp
    ensures r.Err? && r.error.BadToken? ==>
      Verify(BearerToken(authorization).value, secret, now) == Err(r.error.reason)
  {
    match BearerToken(authorization)
      case None => Err(NoToken)
      case Some(token) =>
        match Verify(token, secret, now)
          case Ok(t) =>
            VerifyOnlySigned(token, secret, now);
            Ok(t)
          case Err(e) => Err(BadToken(e))
  }

  /** A request carrying a token this server signed passes the middleware,
      with exactly the signed claims, until the token's expiry; then it is
      refused as expired. */
  lemma SignedTokenPasses(scheme: string, t: Token, secret: string, now: nat)
    requires ' ' !in scheme
    ensures VerifyToken(Some(scheme + " " + Sign(t, secret)), secret, now) ==
      if now < t.exp then Ok(t) else Err(BadToken(Expired))
  {
    var token := Sign(t, secret);
    SplitSigned(t, secret);
    assert token != "";
    assert scheme + " " + token == scheme + " " + token + "";
    BearerTokenIsSecondWord(scheme, token, "");
    VerifySigned(t, secret, now);
  }

  /** A token signed with another secret is refused as a bad signature. */
  lemma ForeignTokenRefused(scheme: string, t: Token, secret: string, other: string, now: nat)
    requires ' ' !in scheme && other != secret
    ensures VerifyToken(Some(scheme + " " + Sign(t, other)), secret, now) == Err(BadToken(InvalidSignature))
  {
    var token := Sign(t, other);
    SplitSigned(t, other);
    assert token != "";
    assert scheme + " " + token == scheme + " " + token + "";
    BearerTokenIsSecondWord(scheme, token, "");
    OtherSecretRejected(t, other, secret, now);
  }

  /* ------------------------------------------------------------------ */
  /* Replies                                                            */

  /** The `_id`, `username` and `name` a successful login returns. */
  datatype LoginView = LoginView(id: nat, username: Option<string>, name: Option<string>)

  /** A user document without its `password`, as `select("-password")` loads it. */
  datatype PublicUser = PublicUser(
    id: nat,
    username: Option<string>,
    name: Option<string>,
    email: Option<string>,
    googleId: Option<string>,
    githubId: Option<string>,
    avatar: Option<string>,
    createdAt: nat,
    updatedAt: nat)

  /** The projection `select("-password")`: every field but the password hash. */
  function Public(u: User): PublicUser
  {
    PublicUser(u.id, u.username, u.name, u.email, u.googleId, u.githubId, u.avatar, u.createdAt, u.updatedAt)
  }

  /** Two records have the same public view exactly when they differ at most
      in the password: no other field is dropped. */
  lemma PublicKeepsAllButPassword(u: User, v: User)
    ensures Public(u) == Public(v) <==> u.(password := v.password) == v
  {
  }

  /** What a 500 reply reports: a save the store refused, or a login on an
      account with no password hash (`bcrypt.compare` rejects a missing hash). */
  datatype Fault = StoreFault(error: DbError) | MissingHash

  /** Which post operation a 403 refers to. */
  datatype PostAction = Update | Delete

  /** The replies the handlers send. */
  datatype Reply =
    | Denied(failure: AuthFailure)
    | MissingDetails
    | UsernameTaken
    | Registered(user: User)
    | UserNotFound
    | InvalidPassword
    | LoggedIn(token: string, view: LoginView)
    | CurrentUser(profile: PublicUser)
    | LoggedOut
    | PostCreated(post: Post)
    | PostNotFound
    | NotAuthorised(action: PostAction)
    | PostUpdated(post: Post)
    | PostDeleted(post: Post)
    | ServerError(message: string, fault: Fault)
  {
    /** The HTTP status code: 2xx exactly for the replies that report
        success, 201 for the two that create a document, 400 for missing
        details and a taken username, 401 both for the middleware's refusals
        and for a wrong password, 403 for a caller who is not the author, 404
        for a missing user or post, and 500 for a server error. */
    function Status(): (s: nat)
      ensures s in {200, 201, 400, 401, 403, 404, 500}
      ensures s < 300 <==>
        (this.Registered? || this.LoggedIn? || this.CurrentUser? || this.LoggedOut? ||
         this.PostCreated? || this.PostUpdated? || this.PostDeleted?)
      ensures s == 201 <==> this.Registered? || this.PostCreated?
      ensures s == 400 <==> this.MissingDetails? || this.UsernameTaken?
      ensures s == 401 <==> this.Denied? || this.InvalidPassword?
      ensures s == 403 <==> this.NotAuthorised?
      ensures s == 404 <==> this.UserNotFound? || this.PostNotFound?
      ensures s == 500 <==> this.ServerError?
    {
      match this
        case Denied(_) => 401
        case MissingDetails => 400
        case UsernameTaken => 400
        case Registered(_) => 201
        case UserNotFound => 404
        case InvalidPassword => 401
        case LoggedIn(_, _) => 200
        case CurrentUser(_) => 200
        case LoggedOut => 200
        case PostCreated(_) => 201
        case PostNotFound => 404
        case NotAuthorised(_) => 403
        case PostUpdated(_) => 200
        case PostDeleted(_) => 200
        case ServerError(_, _) => 500
    }

    /** The `message` field of the JSON body; the current-user reply has none,
        and a refusal by the middleware carries the middleware's message. */
    function Message(): (m: Option<string>)
      ensures m.None? <==> this.CurrentUser?
      ensures this.Denied? ==> m == Some(this.failure.Message())
      ensures this == NotAuthorised(Update) ==> m == Some("Not authorised to update the post")
      ensures this == NotAuthorised(Delete) ==> m == Some("Not authorised to delete the post")
    {
      match this
        case Denied(f) => Some(f.Message())
        case MissingDetails => Some("Please provide all details")
        case UsernameTaken => Some("Username already exists. Please choose a different username.")
        case Registered(_) => Some("User registered successfully")
        case UserNotFound => Some("User not found")
        case InvalidPassword => Some("Invalid password")
        case LoggedIn(_, _) => Some("Logged in successfully")
        case CurrentUser(_) => None
        case LoggedOut => Some("Logged out successfully")
        case PostCreated(_) => Some("Post uploaded successfully")
        case PostNotFound => Some("Unable to find the post")
        case NotAuthorised(Update) => Some("Not authorised to update the post")
        case NotAuthorised(Delete) => Some("Not authorised to delete the post")
        case PostUpdated(_) => Some("Post updated successfully")
        case PostDeleted(_) => Some("Post deleted successfully")
        case ServerError(m, _) => Some(m)
    }
  }

  /* ------------------------------------------------------------------ */
  /* Local accounts                                                     */

  /** `POST /auth/register`: all three fields must be truthy; the username must
      be free; then an account is saved with the username, the name and the
      password's hash, and no email, provider id or avatar. The save cannot
      be refused, so the 500 path is never taken. */
  method Register(db: Db, username: Option<string>, name: Option<string>, password: Option<string>, salt: nat, now: nat)
      returns (r: Reply)
    requires db.Valid()
    modifies db
    ensures db.Valid() && db.posts == old(db.posts)
    ensures !(Truthy(username) && Truthy(name) && Truthy(password)) ==>
      r == MissingDetails && db.users == old(db.users) && db.nextId == old(db.nextId)
    ensures (Truthy(username) && Truthy(name) && Truthy(password) &&
             FindFirst(old(db.users), ByUsername(username.value)).Some?) ==>
      r == UsernameTaken && db.users == old(db.users) && db.nextId == old(db.nextId)
    ensures (Truthy(username) && Truthy(name) && Truthy(password) &&
             FindFirst(old(db.users), ByUsername(username.value)).None?) ==>
      && db.nextId == old(db.nextId) + 1
      && r == Registered(User(old(db.nextId), username, name, None, Some(Hash(password.value, salt)),
                              None, None, None, now, now))
      && db.users == old(db.users) + [r.user]
  {
    if !Truthy(username) || !Truthy(name) || !Truthy(password) {
      return MissingDetails;
    }
    var existing := FindFirst(db.users, ByUsername(username.value));
    if existing.Some? {
      return UsernameTaken;
    }
    var digest := Hash(password.value, salt);
    var id := db.NewId();
    var user := User(id, username, name, None, Some(digest), None, None, None, 0, 0);
    assert SaveError(db.users, user, None) == None by {
      forall k | 0 <= k < |db.users| ensures !SharesKey(db.users[k], user) {
        assert !Matches(db.users[k], ByUsername(username.value));
      }
    }
    var err := db.InsertUser(user, now);
    r := Registered(db.users[|db.users| - 1]);
  }

  /** The token a login issues: the account's id and username, for 24 hours. */
  function LoginToken(u: User, secret: string, now: nat): (token: string)
    ensures ' ' !in token
  {
    Sign(Token(Claims(u.id, u.username), now, now + Day), secret)
  }

  /** A login token authenticates the account's id and username for exactly a day. */
  lemma LoginTokenVerifies(u: User, secret: string, now: nat, at: nat)
    ensures Verify(LoginToken(u, secret, now), secret, at) ==
      if at < now + Day then Ok(Token(Claims(u.id, u.username), now, now + Day)) else Err(Expired)
  {
    VerifySigned(Token(Claims(u.id, u.username), now, now + Day), secret, at);
  }

  /** A login token, presented under any one-word scheme, passes the
      middleware with the account's id and username for a day, and is refused
      as expired from then on. */
  lemma LoginTokenPasses(scheme: string, u: User, secret: string, issued: nat, at: nat)
    requires ' ' !in scheme
    ensures VerifyToken(Some(scheme + " " + LoginToken(u, secret, issued)), secret, at) ==
      if at < issued + Day then Ok(Token(Claims(u.id, u.username), issued, issued + Day))
      else Err(BadToken(Expired))
  {
    SignedTokenPasses(scheme, Token(Claims(u.id, u.username), issued, issued + Day), secret, at);
  }

  /** `POST /auth/login`: both fields truthy; an account with that username;
      a stored hash (an OAuth-only account has none, and the comparison
      throws); the password matching it. Then a 24-hour token. Nothing is
      written. */
  method Login(db: Db, username: Option<string>, password: Option<string>, secret: string, now: nat)
      returns (r: Reply)
    requires db.Valid()
    ensures !(Truthy(username) && Truthy(password)) ==> r == MissingDetails
    ensures (Truthy(username) && Truthy(password) &&
             FindFirst(db.users, ByUsername(username.value)).None?) ==> r == UserNotFound
    ensures (Truthy(username) && Truthy(password) &&
             FindFirst(db.users, ByUsername(username.value)).Some?) ==>
      var u := db.users[FindFirst(db.users, ByUsername(username.value)).value];
      && (u.password.None? ==> r == ServerError("Error logging in", MissingHash))
      && (u.password.Some? && !Compare(password.value, u.password.value) ==> r == InvalidPassword)
      && (u.password.Some? && Compare(password.value, u.password.value) ==>
            r == LoggedIn(LoginToken(u, secret, now), LoginView(u.id, u.username, u.name)))
  {
    if !Truthy(username) || !Truthy(password) {
      return MissingDetails;
    }
    var found := FindFirst(db.users, ByUsername(username.value));
    if found.None? {
      return UserNotFound;
    }
    var user := db.users[found.value];
    if user.password.None? {
      return ServerError("Error logging in", MissingHash);
    }
    if !Compare(password.value, user.password.value) {
      return InvalidPassword;
    }
    var token := LoginToken(user, secret, now);
    r := LoggedIn(token, LoginView(user.id, user.username, user.name));
  }

  /** `GET /auth/me`: the middleware, then the account with the token's id,
      without its password. Nothing is written. */
  method Me(db: Db, authorization: Option<string>, secret: string, now: nat) returns (r: Reply)
    requires db.Valid()
    ensures var auth := VerifyToken(authorization, secret, now);
      auth.Err? ==> r == Denied(auth.error)
    ensures var auth := VerifyToken(authorization, secret, now);
      auth.Ok? ==>
        var found := FindFirst(db.users, ById(auth.value.claims.id));
        && (found.None? ==> r == UserNotFound)
        && (found.Some? ==> r == CurrentUser(Public(db.users[found.value])))
  {
    var auth := VerifyToken(authorization, secret, now);
    if auth.Err? {
      return Denied(auth.error);
    }
    var found := FindFirst(db.users, ById(auth.value.claims.id));
    if found.None? {
      return UserNotFound;
    }
    r := CurrentUser(Public(db.users[found.value]));
  }

  /** `POST /auth/logout`: no token is needed and nothing is revoked. */
  function Logout(): (r: Reply)
    ensures r.Status() == 200 && r.Message() == Some("Logged out successfully")
  {
    LoggedOut
  }

  /* ------------------------------------------------------------------ */
  /* Posts                                                              */

  /** `POST /posts`: the middleware, then a new post by the token's user; the
      save validates it, and a post without a truthy title and content is
      refused with a 500. */
  method CreatePost(db: Db, authorization: Option<string>, secret: string, now: nat,
                    title: Option<string>, image: Option<string>, content: Option<string>)
      returns (r: Reply)
    requires db.Valid()
    modifies db
    ensures db.Valid() && db.users == old(db.users)
    ensures var auth := VerifyToken(authorization, secret, now);
      auth.Err? ==> r == Denied(auth.error) && db.posts == old(db.posts) && db.nextId == old(db.nextId)
    ensures var auth := VerifyToken(authorization, secret, now);
      auth.Ok? ==>
        var post := Post(old(db.nextId), title, image, content, auth.value.claims.id, now, now);
        && db.nextId == old(db.nextId) + 1
        && (PostValid(post) ==> r == PostCreated(post) && db.posts == old(db.posts)[post.id := post])
        && (!PostValid(post) ==>
              r == ServerError("Error uploading post", StoreFault(ValidationFailed)) && db.posts == old(db.posts))
  {
    var auth := VerifyToken(authorization, secret, now);
    if auth.Err? {
      return Denied(auth.error);
    }
    var id := db.NewId();
    var post := Post(id, title, image, content, auth.value.claims.id, 0, 0);
    var err := db.InsertPost(post, now);
    if err.Some? {
      return ServerError("Error uploading post", StoreFault(err.value));
    }
    r := PostCreated(db.posts[id]);
  }

  /** `PUT /posts/:id`: the middleware, then the post must exist, then its
      author must be the token's user; then the patch is written without
      validation, `author` included. */
  method UpdatePost(db: Db, authorization: Option<string>, secret: string, now: nat, id: nat, patch: PostPatch)
      returns (r: Reply)
    requires db.Valid()
    modifies db
    ensures db.Valid() && db.users == old(db.users) && db.nextId == old(db.nextId)
    ensures var auth := VerifyToken(authorization, secret, now);
      auth.Err? ==> r == Denied(auth.error) && db.posts == old(db.posts)
    ensures var auth := VerifyToken(authorization, secret, now);
      auth.Ok? && id !in old(db.posts) ==> r == PostNotFound && db.posts == old(db.posts)
    ensures var auth := VerifyToken(authorization, secret, now);
      auth.Ok? && id in old(db.posts) && old(db.posts)[id].author != auth.value.claims.id ==>
        r == NotAuthorised(Update) && db.posts == old(db.posts)
    ensures var auth := VerifyToken(authorization, secret, now);
      auth.Ok? && id in old(db.posts) && old(db.posts)[id].author == auth.value.claims.id ==>
        var updated := ApplyPatch(old(db.posts)[id], patch).(updatedAt := now);
        r == PostUpdated(updated) && db.posts == old(db.posts)[id := updated]
  {
    var auth := VerifyToken(authorization, secret, now);
    if auth.Err? {
      return Denied(auth.error);
    }
    if id !in db.posts {
      return PostNotFound;
    }
    if db.posts[id].author != auth.value.claims.id {
      return NotAuthorised(Update);
    }
    db.PatchPost(id, patch, now);
    r := PostUpdated(db.posts[id]);
  }

  /** `DELETE /posts/:id`: the same three checks in the same order, then the
      post is removed and returned as it was. */
  method DeletePost(db: Db, authorization: Option<string>, secret: string, now: nat, id: nat)
      returns (r: Reply)
    requires db.Valid()
    modifies db
    ensures db.Valid() && db.users == old(db.users) && db.nextId == old(db.nextId)
    ensures var auth := VerifyToken(authorization, secret, now);
      auth.Err? ==> r == Denied(auth.error) && db.posts == old(db.posts)
    ensures var auth := VerifyToken(authorization, secret, now);
      auth.Ok? && id !in old(db.posts) ==> r == PostNotFound && db.posts == old(db.posts)
    ensures var auth := VerifyToken(authorization, secret, now);
      auth.Ok? && id in old(db.posts) && old(db.posts)[id].author != auth.value.claims.id ==>
        r == NotAuthorised(Delete) && db.posts == old(db.posts)
    ensures var auth := VerifyToken(authorization, secret, now);
      auth.Ok? && id in old(db.posts) && old(db.posts)[id].author == auth.value.claims.id ==>
        r == PostDeleted(old(db.posts)[id]) && db.posts == old(db.posts) - {id}
  {
    var auth := VerifyToken(authorization, secret, now);
    if auth.Err? {
      return Denied(auth.error);
    }
    if id !in db.posts {
      return PostNotFound;
    }
    var post := db.posts[id];
    if post.author != auth.value.claims.id {
      return NotAuthorised(Delete);
    }
    db.RemovePost(id);
    r := PostDeleted(post);
  }
}

=== FILE: store.dfy ===
/** The document store as the handlers see it through Mongoose: a users
    collection kept in insertion order, a posts
    collection keyed by id, and a counter that hands out fresh ids. Saving a
    user document runs schema validation and then the unique indexes; the
    post update path runs neither. */
module Store {
  import opened Js
  import opened UsersModel
  import opened PostModel

  /** The equality queries the handlers issue. */
  datatype Query =
    | ById(id: nat)
    | ByUsername(username: string)
    | ByEmail(email: string)
    | ByProviderId(provider: Provider, providerId: string)

  /** A document matches an equality query when the field is present and equal. */
  predicate Matches(u: User, q: Query)
  {
    match q
      case ById(id) => u.id == id
      case ByUsername(name) => u.username == Some(name)
      case ByEmail(e) => u.email == Some(e)
      case ByProviderId(p, x) => ProviderId(u, p) == Some(x)
  }

  /** `findOne(q)`: the position of a matching document, or none. MongoDB
      returns any one match; the model takes the first, which under the
      unique indexes is the only one (`FindFirstUnique`). */
  function FindFirst(users: seq<User>, q: Query): (r: Option<nat>)
    ensures r.Some? ==> r.value < |users| && Matches(users[r.value], q)
    ensures r.Some? ==> forall k :: 0 <= k < r.value ==> !Matches(users[k], q)
    ensures r.None? ==> forall k :: 0 <= k < |users| ==> !Matches(users[k], q)
  {
    if users == [] then None
    else if Matches(users[0], q) then Some(0)
    else match FindFirst(users[1..], q)
      case None => None
      case Some(k) => Some(k + 1)
  }

  /** Under the unique indexes a key query has at most one answer: any
      document that matches is the one `findOne` returns. */
  lemma FindFirstUnique(users: seq<User>, q: Query, k: nat)
    requires UsersTable(users)
    requires k < |users| && Matches(users[k], q)
    ensures FindFirst(users, q) == Some(k)
  {
    var r := FindFirst(users, q);
    if r.value < k {
      assert SharesKey(users[r.value], users[k]);
    }
  }

  /** Why a save is rejected: a schema validation error, or an E11000 duplicate key. */
  datatype DbError = ValidationFailed | DuplicateKey

  /** The outcome of saving `u`, as a new document (`at` is None) or over the
      document at position `at`: validation first, then the unique indexes
      against every other document. */
  function SaveError(users: seq<User>, u: User, at: Option<nat>): Option<DbError>
  {
    if !UserValid(u) then Some(ValidationFailed)
    else if exists k :: 0 <= k < |users| && Some(k) != at && SharesKey(users[k], u) then Some(DuplicateKey)
    else None
  }

  /** A save the store accepts keeps the users-table invariant, for an insert and for an update. */
  lemma SaveKeepsTable(users: seq<User>, u: User, at: Option<nat>)
    requires UsersTable(users)
    requires at.Some? ==> at.value < |users|
    requires SaveError(users, u, at).None?
    ensures at.None? ==> UsersTable(users + [u])
    ensures at.Some? ==> UsersTable(users[at.value := u])
  {
    if at.Some? {
      var t := users[at.value := u];
      forall i, j | 0 <= i < j < |t| ensures !SharesKey(t[i], t[j]) {
        if i == at.value {
          assert !SharesKey(users[j], u);
        } else if j == at.value {
          assert !SharesKey(users[i], u);
        }
      }
    } else {
      var t := users + [u];
      forall i, j | 0 <= i < j < |t| ensures !SharesKey(t[i], t[j]) {
        if j == |users| {
          assert !SharesKey(users[i], u);
        }
      }
    }
  }

  class Db {
    var users: seq<User>
    var posts: map<nat, Post>
    var nextId: nat

    /** The store invariant: the users table is valid and unique, every post is
        filed under its own id, and every id in use is below `nextId`. Posts
        are not required to validate: the update path does not check them. */
    ghost predicate Valid()
      reads this
    {
      && UsersTable(users)
      && (forall k :: 0 <= k < |users| ==> users[k].id < nextId)
      && (forall id :: id in posts ==> posts[id].id == id && id < nextId)
    }

    constructor ()
      ensures Valid() && users == [] && posts == map[] && nextId == 0
    {
      users, posts, nextId := [], map[], 0;
    }

    /** `new Model(...)`: a fresh `_id`, before anything is saved. */
    method NewId() returns (id: nat)
      requires Valid()
      modifies this`nextId
      ensures Valid()
      ensures id == old(nextId) && nextId == id + 1
    {
      id := nextId;
      nextId := nextId + 1;
    }

    /** `doc.save()` of a new user document; on success the store stamps
        `createdAt` and `updatedAt`. */
    method InsertUser(u: User, now: nat) returns (err: Option<DbError>)
      requires Valid() && u.id < nextId
      modifies this`users
      ensures Valid()
      ensures err == SaveError(old(users), u, None)
      ensures err.None? ==> users == old(users) + [u.(createdAt := now, updatedAt := now)]
      ensures err.Some? ==> users == old(users)
    {
      err := SaveError(users, u, None);
      if err.None? {
        var stamped := u.(createdAt := now, updatedAt := now);
        assert SaveError(users, stamped, None) == None by {
          forall k | 0 <= k < |users| ensures !SharesKey(users[k], stamped) {
            assert !SharesKey(users[k], u);
          }
        }
        SaveKeepsTable(users, stamped, None);
        users := users + [stamped];
      }
    }

    /** `doc.save()` of the user document loaded from position `at`; on success
        the store stamps `updatedAt`. */
    method SaveUser(at: nat, u: User, now: nat) returns (err: Option<DbError>)
      requires Valid() && at < |users| && u.id == users[at].id
      modifies this`users
      ensures Valid()
      ensures err == SaveError(old(users), u, Some(at))
      ensures err.None? ==> users == old(users)[at := u.(updatedAt := now)]
      ensures err.Some? ==> users == old(users)
    {
      err := SaveError(users, u, Some(at));
      if err.None? {
        var stamped := u.(updatedAt := now);
        assert SaveError(users, stamped, Some(at)) == None by {
          forall k | 0 <= k < |users| && k != at ensures !SharesKey(users[k], stamped) {
            assert !SharesKey(users[k], u);
          }
        }
        SaveKeepsTable(users, stamped, Some(at));
        users := users[at := stamped];
      }
    }

    /** `post.save()` of a new post: validation, then the `_id` index; on success
        the store stamps both timestamps. */
    method InsertPost(p: Post, now: nat) returns (err: Option<DbError>)
      requires Valid() && p.id < nextId
      modifies this`posts
      ensures Valid()
      ensures !PostValid(p) ==> err == Some(ValidationFailed) && posts == old(posts)
      ensures PostValid(p) && p.id in old(posts) ==> err == Some(DuplicateKey) && posts == old(posts)
      ensures PostValid(p) && p.id !in old(posts) ==>
        err == None && posts == old(posts)[p.id := p.(createdAt := now, updatedAt := now)]
    {
      if !PostValid(p) {
        err := Some(ValidationFailed);
      } else if p.id in posts {
        err := Some(DuplicateKey);
      } else {
        err := None;
        posts := posts[p.id := p.(createdAt := now, updatedAt := now)];
      }
    }

    /** `findByIdAndUpdate(id, { $set: patch }, { new: true })`: no validator runs;
        the store stamps `updatedAt`. */
    method PatchPost(id: nat, patch: PostPatch, now: nat)
      requires Valid() && id in posts
      modifies this`posts
      ensures Valid()
      ensures posts == old(posts)[id := ApplyPatch(old(posts)[id], patch).(updatedAt := now)]
    {
      posts := posts[id := ApplyPatch(posts[id], patch).(updatedAt := now)];
    }

    /** `findByIdAndDelete(id)`. */
    method RemovePost(id: nat)
      requires Valid()
      modifies this`posts
      ensures Valid()
      ensures posts == old(posts) - {id}
    {
      posts := posts - {id};
    }
  }
}

=== FILE: users_model.dfy ===
/** The user schema: field types, the conditional `required` rules and the
    sparse unique indexes. Absent fields are `None`; every string field may be
    absent in a record, and validation decides which must be present. */
module UsersModel {
  import opened Js
  import opened Bcrypt

  /** The two identity providers a record can carry an id for. */
  datatype Provider = Google | GitHub

  /** A stored user document. `createdAt` and `updatedAt` are the timestamps the
      store maintains; `password` holds a hash, never the plain text. */
  datatype User = User(
    id: nat,
    username: Option<string>,
    name: Option<string>,
    email: Option<string>,
    password: Option<Digest>,
    googleId: Option<string>,
    githubId: Option<string>,
    avatar: Option<string>,
    createdAt: nat,
    updatedAt: nat)

  function Other(p: Provider): Provider
  {
    match p
      case Google => GitHub
      case GitHub => Google
  }

  /** The id field of provider `p`: `googleId` or `githubId`. */
  function ProviderId(u: User, p: Provider): Option<string>
  {
    match p
      case Google => u.googleId
      case GitHub => u.githubId
  }

  /** `user.googleId = id` or `user.githubId = id`: that field and no other changes. */
  function WithProviderId(u: User, p: Provider, id: string): (r: User)
    ensures ProviderId(r, p) == Some(id)
    ensures ProviderId(r, Other(p)) == ProviderId(u, Other(p))
    ensures r.(googleId := u.googleId, githubId := u.githubId) == u
  {
    match p
      case Google => u.(googleId := Some(id))
      case GitHub => u.(githubId := Some(id))
  }

  /** The `required` function shared by `username` and `password`: a record with
      no truthy provider id is a local account and needs both. */
  predicate CredentialsRequired(u: User)
  {
    !Truthy(u.googleId) && !Truthy(u.githubId)
  }

  /** Schema validation: `name` is always required (a required string must be
      non-empty); `username` and `password` are required exactly when
      `CredentialsRequired` holds; `email`, `avatar` and the provider ids are free. */
  predicate UserValid(u: User)
  {
    && Truthy(u.name)
    && (CredentialsRequired(u) ==> Truthy(u.username) && u.password.Some?)
  }

  /** The three requirements of the schema: a record without a truthy name
      never validates; a record with a truthy provider id validates on its
      name alone; a record with neither provider id validates exactly when it
      also has a truthy username and a password. */
  lemma SchemaRequirements(u: User)
    ensures !Truthy(u.name) ==> !UserValid(u)
    ensures Truthy(u.name) && (Truthy(u.googleId) || Truthy(u.githubId)) ==> UserValid(u)
    ensures CredentialsRequired(u) ==>
      (UserValid(u) <==> Truthy(u.name) && Truthy(u.username) && u.password.Some?)
  {
  }

  /** Two values collide in a sparse unique index only when both are present and equal. */
  predicate Clash(a: Option<string>, b: Option<string>)
  {
    a.Some? && a == b
  }

  /** Whether two records violate one of the unique indexes: `_id`, `username`,
      `email`, `googleId` or `githubId`. */
  predicate SharesKey(a: User, b: User)
  {
    || a.id == b.id
    || Clash(a.username, b.username)
    || Clash(a.email, b.email)
    || Clash(a.googleId, b.googleId)
    || Clash(a.githubId, b.githubId)
  }

  /** The users-table invariant: every record validates and no two records share a key. */
  predicate UsersTable(users: seq<User>)
  {
    && (forall i :: 0 <= i < |users| ==> UserValid(users[i]))
    && (forall i, j :: 0 <= i < j < |users| ==> !SharesKey(users[i], users[j]))
  }

  /** The requirements only weaken when a truthy provider id is set: a valid
      record stays valid, and with the id set only `name` is still required. */
  lemma ProviderIdKeepsValid(u: User, p: Provider, id: string)
    requires UserValid(u) && id != ""
    ensures !CredentialsRequired(WithProviderId(u, p, id))
    ensures UserValid(WithProviderId(u, p, id))
  {
  }

  /** The sparse indexes skip absent values: two records with no email and
      no provider id, such as two local accounts, collide only on the id or
      the username. So any number of valid email-less local accounts with
      distinct ids and usernames can be stored together. */
  lemma AbsentNeverClashes(a: User, b: User)
    requires a.email.None? && a.googleId.None? && a.githubId.None?
    requires b.email.None? && b.googleId.None? && b.githubId.None?
    ensures SharesKey(a, b) <==> a.id == b.id || Clash(a.username, b.username)
    ensures UserValid(a) && UserValid(b) && a.id != b.id && a.username != b.username ==> UsersTable([a, b])
  {
  }
}
